=== FILE: README.md ===
# Ocean Commotion — the game-rule layer in Dafny

Ocean Commotion is a browser game. The player steers a flying fish past a
pool of 300 drifting debris pieces (mines and skulls). A piece that reaches
the fish costs a life, and the game ends when no lives are left. This project
models the rules that sit under the rendering in `ocean-commotion/game.js`.
It proves properties of those rules. The model has five modules:

- `GameConstants` (constants.dfy): the tuning constants (drift rate 30, three
  lives, pool size 300, direction codes, movement ranges ±6 and ±9), plus small
  real-number helpers.
- `FishModel` (fish.dfy): the fish record. `Move` is `Fish.move`: a clamped walk
  of `StepCount(60 t)` steps of 0.001 along one axis, plus the tilt that move
  leaves. `Walk` is the step loop as recursion, and `WalkLoop` is the loop with
  its real-valued counter. `CheckCollision` is `Fish.check_collision`, using
  squared distances.
- `DebrisModel` (debris.dfy): the debris record and `SetRandom`
  (`Debris.set_random`), written as a function of nine caller-supplied draws in
  [0, 1). It also holds the constructor (`NewDebris`), the per-frame drift
  (`Advance`) and the recycle trigger (`Recycle`).
- `DebrisPass` (pass.dfy): the simulation part of `Game.draw_debris`. It is
  modelled twice:
  - per slot (`ProcessSlot`, then `Pass`, with lives lost = number of hits);
  - as the source's sequential loop with a running lives counter (`DrawSlot`,
    `DrawStep`, `DrawLoop`, `DrawDebris`).

  The two are proved equal.
- `GameSession` (session.dfy): the session state machine. It covers the
  constructor, the swim keys gated by `can_control`, `reset`, the rule part of
  `display` (reboot, control grace, the pass while not game over, drift-rate
  growth), and runs over arbitrary event sequences.

Module-level mutable state in the source is modelled as fields of the `Game`
record:
- `wave_period` is the field `wavePeriod`;
- `body_color` is the boolean `danger`, true exactly when it is the danger colour.

## Behaviour of game.js worth knowing

- Lives can go below zero. Each incoming piece in the damage window takes a
  life in the same pass (game.js:398), and game over only stops the pass from the
  next frame on (game.js:220). `LivesCanGoNegative` shows a pass going from 1 to -1.
- Damage is dealt once animation time exceeds 5 s (game.js:397). Keys are
  honoured only after 5.5 s (game.js:173). `DamageBeforeControlGrace` shows a
  hit in between.
- The recycle trigger near the camera is `depth < -10` together with a
  near-axis position (game.js:381).
- The constructor forces the type to mine after `set_random` (game.js:538).
- A move is a count of discrete steps of 0.001 (game.js:472-481). The loop
  `i <= total_steps` runs at least once even with zero elapsed time.
- Unknown direction codes change nothing: the switch has no default branch
  (game.js:476-505).
- `reset` does not restore lives itself. The next `display` does that, through
  the reboot flag.
- The guard `if (NONE) return;` (game.js:472) tests the constant 0, so it
  never fires. It is modelled as absent.

## Model

| member | source | states |
|---|---|---|
| FishModel.NewFish | ocean-commotion/game.js:463-469 | a new fish sits where it is placed, level, with three lives |
| FishModel.StepCount | ocean-commotion/game.js:473-479 | the movement loop runs exactly as many times as there are k >= 0 with k·0.001 <= 60t: never for negative time, at least once from t = 0 on |
| FishModel.WalkLoop | ocean-commotion/game.js:479-481 | the loop with its real-valued counter `i += 0.001` runs StepCount(total) times and leaves the coordinate at min(range, x + 0.001·n), or max(-range, x - 0.001·n) when walking down |
| FishModel.StepOnce | ocean-commotion/game.js:479-497 | one pass of a movement loop from inside the range stays inside it and moves at most 0.001 towards its edge, falling short only when it is clamped to the edge |
| FishModel.Walk | ocean-commotion/game.js:478-498 | n passes of a movement loop from inside the range stay inside it and move monotonically towards the edge by at most 0.001·n |
| FishModel.WalkClosedForm | ocean-commotion/game.js:477-501 | n >= 1 clamped steps up give min(range, x + 0.001·n), and down give max(-range, x - 0.001·n), from any start |
| FishModel.Move | ocean-commotion/game.js:471-507 | a move never changes the lives and never takes a fish that is inside the ±6/±9 area out of it |
| FishModel.MoveEffect | ocean-commotion/game.js:477-506 | UP/DOWN set the vertical coordinate to the clamped walk and the vertical tilt to ±0.2; LEFT/RIGHT do the same horizontally; the other axis and tilt are untouched; NONE zeroes both tilts only; any other code changes nothing |
| FishModel.MoveMonotone | ocean-commotion/game.js:477-501 | from inside the area each move goes monotonically in its own direction, by at most 0.001 per step; with t >= 0 a fish short of that edge strictly advances; the other coordinate and tilt stay as they were |
| FishModel.MoveAtZeroTimeTakesOneStep | ocean-commotion/game.js:473-481 | with zero elapsed time, an UP move still takes one step of 0.001 |
| FishModel.CheckCollision | ocean-commotion/game.js:509-523 | Fish.check_collision on squared planar distance: incoming iff dh² + dv² < 4 and -3 < depth < 10 (equivalence with the square-root form is CollisionIsEuclidean) |
| FishModel.CollisionIsEuclidean | ocean-commotion/game.js:509-523 | the squared test agrees with the source's square-root test: a collision holds iff the planar distance is < 2 and -3 < depth < 10 |
| FishModel.CollisionNeedsProximity | ocean-commotion/game.js:512-517 | a collision needs both planar offsets, horizontal and vertical, to be below 2 in absolute value, whatever the depth |
| FishModel.CollisionSymmetric | ocean-commotion/game.js:512-517 | the collision test is unchanged when the vertical and horizontal roles are swapped for both fish and debris |
| DebrisModel.SetRandom | ocean-commotion/game.js:541-557 | with draws in [0,1): horz in [-72,72), vert in [-8,48), depth in [d, d+200), bounce in [0,2), sway in [0,3), each tilt in [0,π); the type is skull iff the type draw > 0.9 |
| DebrisModel.SpawnRangesExact | ocean-commotion/game.js:541-557 | those ranges are exact: a debris lies in them iff some valid draws make set_random produce it |
| DebrisModel.NewDebris | ocean-commotion/game.js:527-539 | a freshly constructed piece is a mine, whatever the type draw, and lies in the spawn ranges at depth >= 200 |
| DebrisModel.Advance | ocean-commotion/game.js:368-375 | one frame of drift: depth falls by wave_period·t, vert and horz get the 0.1 sin/cos term and the 1 - 0.08 t damping, the tilts accumulate; its properties are AdvanceMonotone and AdvanceDriftBounded |
| DebrisModel.ShouldRecycle | ocean-commotion/game.js:380-381 | the recycle trigger: depth < -100, or depth < -10 with -2 < horz < 2 and -1 < vert < 1 (its effect is stated by Recycle) |
| DebrisModel.AdvanceMonotone | ocean-commotion/game.js:368-375 | drifting keeps the type and phase multipliers; with drift rate and dt >= 0 the depth does not increase (it is unchanged when dt = 0); with non-negative multipliers the tilts only accumulate |
| DebrisModel.AdvanceDriftBounded | ocean-commotion/game.js:369-372 | with sin/cos values in [-1,1] and 0 <= dt <= 25 (damping factor 1 - 0.08 dt in [-1,1]), one frame moves each planar coordinate at most 0.1 further from the axis |
| DebrisModel.Recycle | ocean-commotion/game.js:380-382 | after the recycle check no piece is below depth -100; a recycled piece lies in the spawn ranges at depth >= 100; otherwise the piece is unchanged |
| DebrisPass.ProcessSlot | ocean-commotion/game.js:366-403 | after one slot no piece is below -100; the piece is recycled exactly when its drifted position meets the recycle trigger; it is incoming (the danger cue) exactly when the drifted piece was not recycled and collides with the fish; it is a hit exactly when, in addition, the drifted piece lies in the damage window -2 < depth < 0 and the animation time exceeds 5 s; a recycled or hit piece is respawned in the spawn ranges at depth >= 100 |
| DebrisPass.HitCount | ocean-commotion/game.js:395-400 | the lives lost in a pass number at most the pool size, and are zero exactly when no slot hit |
| DebrisPass.Pass | ocean-commotion/game.js:366-412 | after the pass every piece is at depth >= -100; lives fall by at most the pool size; game over is never cleared by a pass; losing a life implies the danger cue |
| DebrisPass.DrawSlot | ocean-commotion/game.js:367-403 | the statements of one loop iteration yield the slot's outcome: exactly one life per hit, danger once incoming, game over once incoming with lives <= 0 |
| DebrisPass.DrawStep | ocean-commotion/game.js:366-403 | one iteration of the loop takes the loop state from slot i to slot i + 1: the first i + 1 pieces are at their slot outcomes, lives are down by the hits so far, and danger and game over agree with that prefix |
| DebrisPass.DrawLoop | ocean-commotion/game.js:366-403 | the sequential loop with its running lives counter leaves each piece at its own slot outcome, lives minus the number of hits, game over raised by an incoming piece reached with lives <= 0, and danger iff some piece was incoming |
| DebrisPass.DrawDebris | ocean-commotion/game.js:366-412 | the whole loop equals the per-slot pass; the pool keeps its size, no piece is left deeper than -100, and at most one life per piece is lost |
| DebrisPass.AnyIncomingStep | ocean-commotion/game.js:393-396 | one more slot raises the danger cue exactly when that slot was incoming |
| DebrisPass.LethalByStep | ocean-commotion/game.js:395-403 | one more slot raises game over exactly when it was incoming and the running lives counter after it is <= 0 |
| DebrisPass.RecycledNeverIncoming | ocean-commotion/game.js:380-393 | a piece recycled in an iteration is at depth >= 100 and cannot be incoming in that same iteration |
| DebrisPass.LastHitRaisesGameOver | ocean-commotion/game.js:395-403 | once the lives left after some hit are <= 0, game over has been raised by the last hit |
| DebrisPass.LethalPassEndsGame | ocean-commotion/game.js:397-402 | a pass that takes the last life always ends the game |
| DebrisPass.HitCountPrefix | ocean-commotion/game.js:398 | the lives lost by the first i pieces never exceed those lost by the whole pass |
| DebrisPass.GameOverMeansNoLives | ocean-commotion/game.js:395-402 | conversely, a pass that raises game over ends with lives <= 0, since only an incoming piece met with lives <= 0 raises it |
| DebrisPass.QuietPass | ocean-commotion/game.js:393-412 | with nothing incoming, a pass costs no life, raises no game over and clears the danger cue |
| DebrisPass.HeadOnHit | ocean-commotion/game.js:395-402 | a piece drifting into -2 < depth < 0 at the fish's position after the grace costs exactly one life, is respawned at depth >= 100 and ends the game iff that was the last life |
| DebrisPass.LivesCanGoNegative | ocean-commotion/game.js:397-402 | two pieces striking a fish with one life in the same pass leave it at -1 lives, with game over |
| DebrisPass.DamageBeforeControlGrace | ocean-commotion/game.js:397 | between 5 s and 5.5 s of animation time a piece can already strike the fish, before keys are honoured |
| GameSession.NewGame | ocean-commotion/game.js:136-148 | a new session satisfies the invariant: no control, no game over, three lives, drift rate 30, and every piece a mine at depth >= 200 |
| GameSession.Press | ocean-commotion/game.js:153-156 | a swim key changes only the fish; without control it passes direction 0, so position stays and both tilts are zeroed; with control it is the key's move |
| GameSession.NoMovementWithoutControl | ocean-commotion/game.js:153-156 | while can_control is false no swim key moves the fish |
| GameSession.Reset | ocean-commotion/game.js:448-458 | reset centres and levels the fish, clears game over, sets reboot and restores the drift rate to 30; every other field (lives, pool, control, last move time, danger cue) is untouched |
| GameSession.RespawnAll | ocean-commotion/game.js:166-168 | the reboot respawns every slot into the spawn ranges at depth >= 200 |
| GameSession.Display | ocean-commotion/game.js:161-231 | a frame clears reboot; control holds after the frame exactly when it held before or, without a reboot, the animation time exceeds 5.5 s; game over persists and freezes pool and fish; the drift rate grows by exactly the frame's dt in seconds (0 on the reboot frame); a reboot frame leaves exactly 3 lives and, when the game is not over, every piece at depth >= 200; otherwise lives never exceed their value before the frame; the fish does not move |
| GameSession.ControlGranted | ocean-commotion/game.js:172-175 | without a pending reboot, a frame later than 5.5 s grants control |
| GameSession.ResetThenDisplay | ocean-commotion/game.js:162-170 | reset followed by a frame gives a centred, level fish with 3 lives, no game over, no reboot, no danger, drift rate 30, and every piece at depth >= 200 |
| GameSession.FarPoolIsQuiet | ocean-commotion/game.js:366-403 | a pass with zero elapsed time over a pool at depth >= 200 leaves every piece at depth >= 200 and costs nothing |
| GameSession.ControlNeverRevoked | ocean-commotion/game.js:173-175 | over any sequence of frames, keys and resets, control once granted stays granted |
| GameSession.GameOverUntilReset | ocean-commotion/game.js:401-402 | over any events without the reset key, game over once raised stays raised |
| GameSession.DriftRateGrows | ocean-commotion/game.js:231 | between resets, with non-negative frame deltas, the drift rate never decreases |
| GameSession.StepKeepsInvariant | ocean-commotion/game.js:380-382 | every event keeps the pool at 300 pieces at depth >= -100 with multipliers in range, the fish in its area, and lives <= 3 |
| GameSession.PassKeepsPieces | ocean-commotion/game.js:366-382 | the pass keeps every piece at depth >= -100 with bounce in [0,2) and sway in [0,3) |
| GameSession.RunKeepsInvariant | ocean-commotion/game.js:161-231 | every session reached from a valid one by any events keeps that invariant |

## Left out

- Rendering: shapes, materials, camera, projection, lights, `draw_ui`,
  `draw_fish`, `draw_wings`, `draw_sky`, `draw_crosshair`, `draw_death_scene`,
  and every matrix transform and draw call. These are presentation over a
  framework this model does not contain.
- The GLSL shader class `Texture_Scroll_X`: it is GPU code, not game logic.
- `Math.random`: the draws are caller-supplied reals in [0, 1). The roughly 10%
  skull frequency is a statistical claim and is not stated.
- Advance: `Math.sin`/`Math.cos` are caller-supplied values per slot (`Wave`).
  They are not tied to their arguments `a_t * bounce_offset` and
  `a_t * sway_offset`. Only their range [-1, 1] is used.
- `Math.sqrt`: the collision test compares squared distances, and
  `CollisionIsEuclidean` proves this matches the square-root form.
- IEEE-754 arithmetic: everything is exact `real`. StepCount counts the
  iterations of the `i += 0.001` loop over exact reals. Rounding in the float
  counter can make the real loop run a slightly different number of times.
- `console.log` in the collision test: output only.
- Input plumbing (`key_triggered_button`) and frame timing (`program_state`):
  animation time and frame delta are inputs to `Display`. A reboot's write of
  zero into `program_state` is modelled as zeroing that frame's times. How the
  framework counts time afterwards is not part of this model.
- The "Toggle Fish View" key: it only chooses the camera.
- The assignment to `x_layer_pos` in `reset`: the field is never read.
- `draw_debris` loops to the constant 300, while the reboot loops over the array
  length. The model loops over the whole pool, and `RunKeepsInvariant` proves
  the pool keeps 300 pieces.
- One set of draws per slot per pass: a slot is respawned at most once per pass
  (`RecycledNeverIncoming`), so this covers every `Math.random` call the pass
  makes.

=== FILE: constants.dfy ===
/**
  The tuning constants of the game-rule layer of ocean-commotion (game.js,
  lines 12-35 and the literals used by the fish and debris rules).
 */
module GameConstants {

  /** Drift rate ("wave period") at session start and after a reset. */
  const DefaultPeriod: real := 30.0
  /** Lives at session start and after a reboot. */
  const MaxLives: int := 3
  /** Size of the debris pool. */
  const DebrisAmount: nat := 300

  /** Direction codes passed to the fish's move handler. */
  const NONE: int := 0
  const LEFT: int := 1
  const RIGHT: int := 2
  const UP: int := 3
  const DOWN: int := 4

  /** Half-widths of the fish's playable area. */
  const HorzRange: real := 9.0
  const VertRange: real := 6.0

  /** Fish movement: steps per second of elapsed time, the size of one step, the tilt set by a move. */
  const StepsPerSecond: real := 60.0
  const StepSize: real := 0.001
  const TiltFactor: real := 0.2

  /** Debris respawn depths: recycling during a pass, and the default (constructor and reboot). */
  const RecycleDepth: real := 100.0
  const SpawnDepth: real := 200.0

  /** Seconds of animation time before damage is dealt, and before keys are honoured. */
  const DamageGrace: real := 5.0
  const ControlGrace: real := 5.5

  /** Math.PI as JavaScript prints it. */
  const Pi: real := 3.141592653589793

  function Min(a: real, b: real): real { if a <= b then a else b }
  function Max(a: real, b: real): real { if a >= b then a else b }
  function Abs(a: real): real { if a < 0.0 then -a else a }
}

=== FILE: debris.dfy ===
/**
  One piece of drifting debris (class Debris of game.js): its random respawn,
  its per-frame drift, and the rule that recycles it once it has passed the
  camera.
 */
module DebrisModel {
  import opened GameConstants

  /** Debris type 0 (mine) or 1 (skull); it only selects the mesh that is drawn. */
  datatype Kind = Mine | Skull

  /** Position (depth along the flight axis), tilt accumulators, phase multipliers and type. */
  datatype Debris = Debris(
    horz: real, vert: real, depth: real,
    tiltX: real, tiltY: real, tiltZ: real,
    bounce: real, sway: real,
    kind: Kind)

  /** The nine `Math.random()` results one call of set_random consumes, in the order it consumes them. */
  datatype Draws = Draws(
    horz: real, vert: real, depth: real,
    bounce: real, sway: real,
    tiltX: real, tiltY: real, tiltZ: real,
    kind: real)

  predicate Unit(x: real) { 0.0 <= x < 1.0 }

  /** Every draw lies in the half-open interval [0, 1), as Math.random promises. */
  predicate ValidDraws(r: Draws) {
    Unit(r.horz) && Unit(r.vert) && Unit(r.depth) && Unit(r.bounce) && Unit(r.sway)
    && Unit(r.tiltX) && Unit(r.tiltY) && Unit(r.tiltZ) && Unit(r.kind)
  }

  /** The ranges set_random(minDepth) fills, written out as numbers. */
  predicate InSpawnRanges(d: Debris, minDepth: real) {
    && -72.0 <= d.horz < 72.0
    && -8.0 <= d.vert < 48.0
    && minDepth <= d.depth < minDepth + 200.0
    && 0.0 <= d.bounce < 2.0
    && 0.0 <= d.sway < 3.0
    && 0.0 <= d.tiltX < Pi && 0.0 <= d.tiltY < Pi && 0.0 <= d.tiltZ < Pi
  }

  /**
    Debris.set_random(minDepth): every field is overwritten from the draws, so
    a respawn is a slot overwrite. The result lies in the spawn ranges, and the
    type is a skull exactly when the type draw exceeds 0.9.

    The affine maps use the source's fill multipliers fill_multX = 8,
    fill_multY = 8 * 6 / 9 and fill_multZ = 10, folded with the ranges
    horz_range = 9, vert_range = 6 and depth_range = 20:
      horz  = -9 * 8 + 2 * 8 * 9 * draw           = -72 + 144 * draw
      vert  = -6 * (16/3) * 0.25 + 1.75 * (16/3) * 6 * draw = -8 + 56 * draw
      depth = minDepth + 10 * 20 * draw          = minDepth + 200 * draw
   */
  function SetRandom(minDepth: real, r: Draws): (d: Debris)
    requires ValidDraws(r)
    ensures InSpawnRanges(d, minDepth)
    ensures d.kind == Skull <==> r.kind > 0.9
  {
    Debris(
      horz := -72.0 + 144.0 * r.horz,
      vert := -8.0 + 56.0 * r.vert,
      depth := minDepth + 200.0 * r.depth,
      tiltX := r.tiltX * Pi,
      tiltY := r.tiltY * Pi,
      tiltZ := r.tiltZ * Pi,
      bounce := 2.0 * r.bounce,
      sway := 3.0 * r.sway,
      kind := if r.kind > 0.9 then Skull else Mine)
  }

  /** The draws that make set_random produce a given debris (the inverse of SetRandom on its ranges). */
  function DrawsFor(d: Debris, minDepth: real): Draws {
    Draws(
      horz := (d.horz + 72.0) / 144.0,
      vert := (d.vert + 8.0) / 56.0,
      depth := (d.depth - minDepth) / 200.0,
      bounce := d.bounce / 2.0,
      sway := d.sway / 3.0,
      tiltX := d.tiltX / Pi, tiltY := d.tiltY / Pi, tiltZ := d.tiltZ / Pi,
      kind := if d.kind == Skull then 0.95 else 0.0)
  }

  /**
    The spawn ranges are exact: every debris in them is produced by some valid
    draws, so set_random's image is precisely InSpawnRanges.
   */
  lemma SpawnRangesExact(d: Debris, minDepth: real)
    ensures InSpawnRanges(d, minDepth) <==> exists r :: ValidDraws(r) && SetRandom(minDepth, r) == d
  {
    if InSpawnRanges(d, minDepth) {
      var r := DrawsFor(d, minDepth);
      assert ValidDraws(r);
      var e := SetRandom(minDepth, r);
      assert e.horz == d.horz;
      assert e.vert == d.vert;
      assert e.depth == d.depth;
      assert e.tiltX == d.tiltX && e.tiltY == d.tiltY && e.tiltZ == d.tiltZ;
      assert e == d;
    }
  }

  /**
    The Debris constructor: zeroed fields, then set_random with its default
    depth 200, then the type is forced back to mine whatever the type draw was.
   */
  function NewDebris(r: Draws): (d: Debris)
    requires ValidDraws(r)
    ensures d.kind == Mine
    ensures InSpawnRanges(d, SpawnDepth)
  {
    SetRandom(SpawnDepth, r).(kind := Mine)
  }

  /** Per-frame inputs of the drift: elapsed seconds, animation time in seconds, and the shared drift rate. */
  datatype Frame = Frame(dt: real, animSeconds: real, wavePeriod: real)

  /**
    The two trigonometric values one piece's drift reads in a frame:
    Math.sin(animSeconds * bounce) and Math.cos(animSeconds * sway). They are
    supplied by the caller; only their range is known.
   */
  datatype Wave = Wave(sin: real, cos: real)

  predicate WaveBounded(w: Wave) {
    -1.0 <= w.sin <= 1.0 && -1.0 <= w.cos <= 1.0
  }

  /** The multiplicative decay that pulls debris towards the flight axis. */
  function Damping(dt: real): real { 1.0 - 0.08 * dt }

  /** One planar coordinate after a frame: a wave term of amplitude 0.1 is added, then the sum is damped. */
  function Drift(x: real, wave: real, dt: real): real { (x + 0.1 * wave) * Damping(dt) }

  /**
    The drift of one frame: depth falls by wavePeriod * dt, the planar position
    gets a small oscillation and is damped, and the tilts accumulate at rates set
    by the phase multipliers. Type and multipliers never change.
   */
  function Advance(d: Debris, fr: Frame, w: Wave): Debris {
    Debris(
      horz := Drift(d.horz, w.cos, fr.dt),
      vert := Drift(d.vert, w.sin, fr.dt),
      depth := d.depth - fr.wavePeriod * fr.dt,
      tiltX := d.tiltX + fr.dt * d.bounce * d.sway,
      tiltY := d.tiltY + 1.0005 * fr.dt * d.bounce,
      tiltZ := d.tiltZ + 1.0005 * fr.dt * d.sway,
      bounce := d.bounce,
      sway := d.sway,
      kind := d.kind)
  }

  /**
    Drifting never changes the type or the phase multipliers; with a
    non-negative drift rate and frame time the depth only decreases (and stays
    put when no time elapsed), and with non-negative multipliers the tilts only
    accumulate.
   */
  lemma AdvanceMonotone(d: Debris, fr: Frame, w: Wave)
    ensures var r := Advance(d, fr, w);
      && r.kind == d.kind && r.bounce == d.bounce && r.sway == d.sway
      && (fr.wavePeriod >= 0.0 && fr.dt >= 0.0 ==> r.depth <= d.depth)
      && (fr.dt == 0.0 ==> r.depth == d.depth)
      && (fr.dt >= 0.0 && d.bounce >= 0.0 && d.sway >= 0.0 ==>
            d.tiltX <= r.tiltX && d.tiltY <= r.tiltY && d.tiltZ <= r.tiltZ)
  {
  }

  /**
    With bounded sin/cos and a damping factor in [-1, 1] (0 <= dt <= 25), one
    frame moves each planar coordinate at most 0.1 further from the axis. For
    longer frames the factor drops below -1 and the drift can throw a piece
    across the axis further out than it was.
   */
  lemma AdvanceDriftBounded(d: Debris, fr: Frame, w: Wave)
    requires WaveBounded(w)
    requires 0.0 <= fr.dt <= 25.0
    ensures Abs(Advance(d, fr, w).vert) <= Abs(d.vert) + 0.1
    ensures Abs(Advance(d, fr, w).horz) <= Abs(d.horz) + 0.1
  {
    DriftBounded(d.vert, w.sin, fr.dt);
    DriftBounded(d.horz, w.cos, fr.dt);
  }

  /** One damped oscillation step with a wave term in [-1, 1] and a factor in [-1, 1]. */
  lemma DriftBounded(x: real, w: real, dt: real)
    requires -1.0 <= w <= 1.0 && 0.0 <= dt <= 25.0
    ensures Abs(Drift(x, w, dt)) <= Abs(x) + 0.1
  {
    var y := x + 0.1 * w;
    var k := Damping(dt);
    assert -1.0 <= k <= 1.0;
    assert Drift(x, w, dt) == y * k;
    assert Abs(y) <= Abs(x) + 0.1;
    ScaleBound(y, k);
  }

  /** Scaling by a factor in [-1, 1] never increases the magnitude. */
  lemma ScaleBound(y: real, k: real)
    requires -1.0 <= k <= 1.0
    ensures Abs(y * k) <= Abs(y)
  {
    var z := Abs(y);
    assert z * (1.0 - k) >= 0.0 && z * (1.0 + k) >= 0.0;
    assert y * k == z * k || y * k == -(z * k);
  }

  /**
    The recycle trigger: far behind the camera (depth < -100), or behind it
    (depth < -10) while close to the flight axis.
   */
  predicate ShouldRecycle(d: Debris) {
    d.depth < -100.0 || (d.depth < -10.0 && -2.0 < d.horz < 2.0 && -1.0 < d.vert < 1.0)
  }

  /** Apply the recycle trigger: afterwards the depth is never below -100, and a recycled piece sits at depth >= 100. */
  function Recycle(d: Debris, r: Draws): (e: Debris)
    requires ValidDraws(r)
    ensures e.depth >= -100.0
    ensures ShouldRecycle(d) ==> e.depth >= RecycleDepth && InSpawnRanges(e, RecycleDepth)
    ensures !ShouldRecycle(d) ==> e == d
  {
    if ShouldRecycle(d) then SetRandom(RecycleDepth, r) else d
  }
}

=== FILE: fish.dfy ===
/**
  The player's fish (class Fish of game.js): a clamped walk along one axis
  per key press, the tilt that press leaves behind, and the collision test
  against a piece of debris.
 */
module FishModel {
  import opened GameConstants
  import DebrisModel

  /** Position in the vertical/horizontal plane, the visual tilts, and the lives counter. */
  datatype Fish = Fish(vert: real, horz: real, vertTilt: real, horzTilt: real, lives: int)

  /** A fish at the given position with level tilts and full lives. */
  function NewFish(horizontal: real, vertical: real): (f: Fish)
    ensures f.lives == MaxLives && f.vertTilt == 0.0 && f.horzTilt == 0.0
    ensures f.vert == vertical && f.horz == horizontal
  {
    Fish(vertical, horizontal, 0.0, 0.0, MaxLives)
  }

  /** The fish lies inside the playable rectangle. */
  predicate InBounds(f: Fish) {
    -VertRange <= f.vert <= VertRange && -HorzRange <= f.horz <= HorzRange
  }

  /** One pass of the inner movement loop: a step of StepSize towards +range (up) or -range (down), clamped. */
  function StepOnce(x: real, up: bool, range: real): (r: real)
    ensures -range <= x <= range ==> -range <= r <= range
    ensures -range <= x <= range && up ==> x <= r <= x + StepSize && (r < x + StepSize ==> r == range)
    ensures -range <= x <= range && !up ==> x - StepSize <= r <= x && (x - StepSize < r ==> r == -range)
  {
    if up then Min(range, x + StepSize) else Max(-range, x - StepSize)
  }

  /** The inner movement loop run n times. */
  function Walk(x: real, up: bool, range: real, n: nat): (r: real)
    ensures -range <= x <= range ==> -range <= r <= range
    ensures -range <= x <= range ==> (if up then x <= r <= x + StepSize * n as real else x - StepSize * n as real <= r <= x)
    decreases n
  {
    if n == 0 then x else Walk(StepOnce(x, up, range), up, range, n - 1)
  }

  /** The closed form of the clamped walk: `min(range, x + 0.001 n)` upwards, `max(-range, x - 0.001 n)` downwards. */
  function Walked(x: real, up: bool, range: real, n: nat): real {
    if n == 0 then x
    else if up then Min(range, x + StepSize * n as real)
    else Max(-range, x - StepSize * n as real)
  }

  /** The iterated loop agrees with the closed form, for every start (even one outside the range). */
  lemma {:induction false} WalkClosedForm(x: real, up: bool, range: real, n: nat)
    requires range >= 0.0
    ensures Walk(x, up, range, n) == Walked(x, up, range, n)
    decreases n
  {
    if n > 1 {
      WalkClosedForm(StepOnce(x, up, range), up, range, n - 1);
    }
  }

  /**
    Number of iterations of `for (i = 0; i <= total; i += StepSize)` over exact
    reals: the count of k >= 0 with k * StepSize <= total.
   */
  function StepCount(total: real): (n: nat)
    ensures total < 0.0 ==> n == 0
    ensures total >= 0.0 ==> n >= 1 && (n - 1) as real * StepSize <= total < n as real * StepSize
  {
    if total < 0.0 then 0 else (total / StepSize).Floor + 1
  }

  /**
    The literal movement loop with a real-valued counter: it runs exactly
    StepCount(total) times, at least once whenever total >= 0, and leaves the
    coordinate at the closed form of the clamped walk.
   */
  method WalkLoop(x: real, up: bool, range: real, total: real) returns (pos: real, steps: nat)
    requires range >= 0.0
    ensures steps == StepCount(total)
    ensures pos == Walked(x, up, range, steps)
  {
    pos := x;
    steps := 0;
    var i: real := 0.0;
    while i <= total
      invariant i == steps as real * StepSize
      invariant total >= 0.0 ==> steps <= StepCount(total)
      invariant total < 0.0 ==> steps == 0
      invariant pos == Walk(x, up, range, steps)
      decreases StepCount(total) - steps
    {
      StepLast(x, up, range, steps);
      pos := StepOnce(pos, up, range);
      i := i + StepSize;
      steps := steps + 1;
    }
    WalkClosedForm(x, up, range, steps);
  }

  /** Running the loop once more applies one more step to the result. */
  lemma {:induction false} StepLast(x: real, up: bool, range: real, n: nat)
    ensures Walk(x, up, range, n + 1) == StepOnce(Walk(x, up, range, n), up, range)
    decreases n
  {
    if n > 0 {
      StepLast(StepOnce(x, up, range), up, range, n - 1);
    }
  }

  /**
    Fish.move: UP/DOWN walk the vertical coordinate and tilt it, LEFT/RIGHT walk
    the horizontal one, NONE levels both tilts, and any other code changes nothing.
    The walk runs StepCount(60 t) clamped steps.
   */
  function Move(f: Fish, direction: int, t: real): (r: Fish)
    ensures r.lives == f.lives
    ensures InBounds(f) ==> InBounds(r)
  {
    var n := StepCount(StepsPerSecond * t);
    WalkClosedForm(f.vert, true, VertRange, n);
    WalkClosedForm(f.vert, false, VertRange, n);
    WalkClosedForm(f.horz, true, HorzRange, n);
    WalkClosedForm(f.horz, false, HorzRange, n);
    if direction == UP then
      f.(vert := Walk(f.vert, true, VertRange, n), vertTilt := TiltFactor)
    else if direction == DOWN then
      f.(vert := Walk(f.vert, false, VertRange, n), vertTilt := -TiltFactor)
    else if direction == LEFT then
      f.(horz := Walk(f.horz, false, HorzRange, n), horzTilt := -TiltFactor)
    else if direction == RIGHT then
      f.(horz := Walk(f.horz, true, HorzRange, n), horzTilt := TiltFactor)
    else if direction == NONE then
      f.(horzTilt := 0.0, vertTilt := 0.0)
    else
      f
  }

  /**
    What each direction does, stated through the closed form: the moved axis
    ends at the clamped walk of n steps, its tilt is set, the other axis and tilt
    are untouched; NONE only levels the tilts; unknown codes are ignored.
   */
  lemma MoveEffect(f: Fish, direction: int, t: real)
    ensures var n := StepCount(StepsPerSecond * t);
      var r := Move(f, direction, t);
      && (direction == UP ==> r == f.(vert := Walked(f.vert, true, VertRange, n), vertTilt := 0.2))
      && (direction == DOWN ==> r == f.(vert := Walked(f.vert, false, VertRange, n), vertTilt := -0.2))
      && (direction == LEFT ==> r == f.(horz := Walked(f.horz, false, HorzRange, n), horzTilt := -0.2))
      && (direction == RIGHT ==> r == f.(horz := Walked(f.horz, true, HorzRange, n), horzTilt := 0.2))
      && (direction == NONE ==> r == f.(vertTilt := 0.0, horzTilt := 0.0))
      && (direction !in {NONE, LEFT, RIGHT, UP, DOWN} ==> r == f)
  {
    var n := StepCount(StepsPerSecond * t);
    WalkClosedForm(f.vert, true, VertRange, n);
    WalkClosedForm(f.vert, false, VertRange, n);
    WalkClosedForm(f.horz, true, HorzRange, n);
    WalkClosedForm(f.horz, false, HorzRange, n);
  }

  /**
    From inside the playable area, a move goes monotonically in its direction
    by at most StepSize per step, and at least one step is taken when t >= 0,
    so a fish short of the edge it is heading for strictly advances.
   */
  lemma MoveMonotone(f: Fish, direction: int, t: real)
    requires InBounds(f)
    ensures var r := Move(f, direction, t);
      var bound := StepSize * StepCount(StepsPerSecond * t) as real;
      && (direction == UP ==> r.vert <= f.vert + bound)
      && (direction == DOWN ==> f.vert - bound <= r.vert)
      && (direction == RIGHT ==> r.horz <= f.horz + bound)
      && (direction == LEFT ==> f.horz - bound <= r.horz)
      && (t >= 0.0 && direction == UP && f.vert < VertRange ==> f.vert < r.vert)
      && (t >= 0.0 && direction == DOWN && -VertRange < f.vert ==> r.vert < f.vert)
      && (t >= 0.0 && direction == RIGHT && f.horz < HorzRange ==> f.horz < r.horz)
      && (t >= 0.0 && direction == LEFT && -HorzRange < f.horz ==> r.horz < f.horz)
    ensures var r := Move(f, direction, t);
      && (direction == UP ==> f.vert <= r.vert)
      && (direction == DOWN ==> r.vert <= f.vert)
      && (direction == RIGHT ==> f.horz <= r.horz)
      && (direction == LEFT ==> r.horz <= f.horz)
      && (direction in {UP, DOWN} ==> r.horz == f.horz && r.horzTilt == f.horzTilt)
      && (direction in {LEFT, RIGHT} ==> r.vert == f.vert && r.vertTilt == f.vertTilt)
  {
    MoveEffect(f, direction, t);
  }

  /** Even with zero elapsed time, a move from strictly inside the range moves the fish by one step. */
  lemma MoveAtZeroTimeTakesOneStep(f: Fish)
    requires -VertRange <= f.vert <= VertRange - StepSize
    ensures Move(f, UP, 0.0).vert == f.vert + StepSize
  {
  }

  /**
    Fish.check_collision: the debris is within radius 2 of the fish in the
    vertical/horizontal plane (compared through squares) and its depth lies
    strictly between -3 and 10.
   */
  predicate CheckCollision(f: Fish, d: DebrisModel.Debris) {
    var dh := f.horz - d.horz;
    var dv := f.vert - d.vert;
    dh * dh + dv * dv < 4.0 && -3.0 < d.depth < 10.0
  }

  /**
    The squared comparison is the source's square-root test: for the
    non-negative distance `dist` with dist^2 = dh^2 + dv^2, a collision holds
    exactly when dist < 2 and the depth is in the window.
   */
  lemma CollisionIsEuclidean(f: Fish, d: DebrisModel.Debris, dist: real)
    requires dist >= 0.0
    requires dist * dist == (f.horz - d.horz) * (f.horz - d.horz) + (f.vert - d.vert) * (f.vert - d.vert)
    ensures CheckCollision(f, d) <==> dist < 2.0 && -3.0 < d.depth < 10.0
  {
    if dist < 2.0 {
      assert dist * dist <= dist * 2.0 < 4.0;
    } else {
      assert dist * dist >= dist * 2.0 >= 4.0;
    }
  }

  /**
    A collision needs both planar offsets below 2 in absolute value, whatever
    the depth (the exact distance condition is CollisionIsEuclidean).
   */
  lemma CollisionNeedsProximity(f: Fish, d: DebrisModel.Debris)
    ensures CheckCollision(f, d) ==> Abs(f.horz - d.horz) < 2.0 && Abs(f.vert - d.vert) < 2.0
  {
    SquareBound(f.horz - d.horz);
    SquareBound(f.vert - d.vert);
  }

  lemma SquareBound(x: real)
    ensures x * x >= 0.0
    ensures Abs(x) >= 2.0 ==> x * x >= 4.0
  {
  }

  /** The test is symmetric under swapping the vertical and horizontal roles of both fish and debris. */
  lemma CollisionSymmetric(f: Fish, d: DebrisModel.Debris)
    ensures CheckCollision(f.(vert := f.horz, horz := f.vert), d.(vert := d.horz, horz := d.vert))
        <==> CheckCollision(f, d)
  {
  }
}

=== FILE: pass.dfy ===
/**
  The simulation part of Game.draw_debris: one pass over the debris pool per
  frame that drifts every piece, recycles pieces that passed the camera,
  tests each against the fish, takes a life for each piece that strikes it,
  raises game over, and reports whether anything was incoming (the "danger"
  body colour).

  Each slot's own outcome does not depend on the others, so the pass is given
  two ways: per slot (ProcessSlot, Pass) and as the source's sequential loop
  with a running lives counter (DrawDebris), and the two are proved equal.
 */
module DebrisPass {
  import opened GameConstants
  import opened DebrisModel
  import opened FishModel

  /**
    What the outside world supplies for one slot in one frame: the sin/cos
    values its drift reads, and the random draws a respawn would consume. A
    slot is respawned at most once per pass (RecycledNeverIncoming), so one
    set of draws per slot covers every respawn.
   */
  datatype SlotInputs = SlotInputs(wave: Wave, respawn: Draws)

  predicate ValidInputs(xs: seq<SlotInputs>) {
    forall j :: 0 <= j < |xs| ==> ValidDraws(xs[j].respawn)
  }

  /** The outcome of one slot: the piece afterwards, and whether it was recycled, was incoming, and struck the fish. */
  datatype SlotResult = SlotResult(debris: Debris, recycled: bool, incoming: bool, hit: bool)

  /** Depths at which an incoming piece deals damage. */
  predicate InDamageWindow(d: Debris) { -2.0 < d.depth < 0.0 }

  /**
    One slot: drift, recycle trigger, collision test, then damage and respawn.
    Afterwards no piece is deeper than -100 behind the camera, a recycled piece
    is never incoming, and a piece that struck the fish was incoming past the
    damage grace and is back at depth >= 100.
   */
  function ProcessSlot(d: Debris, fr: Frame, fish: Fish, x: SlotInputs): (r: SlotResult)
    requires ValidDraws(x.respawn)
    ensures r.debris.depth >= -100.0
    ensures r.recycled == ShouldRecycle(Advance(d, fr, x.wave))
    ensures var m := Advance(d, fr, x.wave);
      r.incoming <==> !ShouldRecycle(m) && CheckCollision(fish, m)
    ensures var m := Advance(d, fr, x.wave);
      r.hit <==> !ShouldRecycle(m) && CheckCollision(fish, m) && InDamageWindow(m) && fr.animSeconds > DamageGrace
    ensures r.hit ==> r.debris.depth >= RecycleDepth
    ensures r.recycled || r.hit ==> InSpawnRanges(r.debris, RecycleDepth)
    ensures !r.recycled && !r.hit ==> r.debris == Advance(d, fr, x.wave)
  {
    var moved := Advance(d, fr, x.wave);
    var placed := Recycle(moved, x.respawn);
    var incoming := CheckCollision(fish, placed);
    var hit := incoming && InDamageWindow(placed) && fr.animSeconds > DamageGrace;
    SlotResult(if hit then SetRandom(RecycleDepth, x.respawn) else placed, ShouldRecycle(moved), incoming, hit)
  }

  /** The outcome of every slot of the pool. */
  function Outcomes(ds: seq<Debris>, fr: Frame, fish: Fish, xs: seq<SlotInputs>): (rs: seq<SlotResult>)
    requires |xs| == |ds| && ValidInputs(xs)
    ensures |rs| == |ds|
  {
    seq(|ds|, j requires 0 <= j < |ds| => ProcessSlot(ds[j], fr, fish, xs[j]))
  }

  /** Number of slots that struck the fish. */
  function HitCount(rs: seq<SlotResult>): (n: nat)
    ensures n <= |rs|
    ensures n == 0 <==> forall j :: 0 <= j < |rs| ==> !rs[j].hit
  {
    if |rs| == 0 then 0
    else HitCount(rs[..|rs| - 1]) + (if rs[|rs| - 1].hit then 1 else 0)
  }

  /** Extending a prefix by one slot adds that slot's hit. */
  lemma HitCountStep(rs: seq<SlotResult>, i: nat)
    requires i < |rs|
    ensures HitCount(rs[..i + 1]) == HitCount(rs[..i]) + (if rs[i].hit then 1 else 0)
  {
    assert rs[..i + 1][..i] == rs[..i];
  }

  /** Some slot among the first i was incoming. */
  predicate AnyIncoming(rs: seq<SlotResult>, i: nat)
    requires i <= |rs|
  {
    exists j :: 0 <= j < i && rs[j].incoming
  }

  /**
    Game over after the first i slots: it was already set, or some incoming
    slot among them was processed when the lives left after it were <= 0.
   */
  predicate LethalBy(gameOver: bool, lives: int, rs: seq<SlotResult>, i: nat)
    requires i <= |rs|
  {
    gameOver || exists j :: 0 <= j < i && rs[j].incoming && lives - HitCount(rs[..j + 1]) <= 0
  }

  /** Extending a prefix by one slot adds that slot's incoming flag to the danger cue. */
  lemma AnyIncomingStep(rs: seq<SlotResult>, i: nat)
    requires i < |rs|
    ensures AnyIncoming(rs, i + 1) == (AnyIncoming(rs, i) || rs[i].incoming)
  {
  }

  /** Extending a prefix by one slot raises game over exactly when that slot was incoming with no lives left after it. */
  lemma LethalByStep(gameOver: bool, lives: int, rs: seq<SlotResult>, i: nat)
    requires i < |rs|
    ensures LethalBy(gameOver, lives, rs, i + 1)
        == (LethalBy(gameOver, lives, rs, i) || (rs[i].incoming && lives - HitCount(rs[..i + 1]) <= 0))
  {
  }

  /** The result of a pass: the pool afterwards, lives, game over, and the danger cue. */
  datatype PassResult = PassResult(debris: seq<Debris>, lives: int, gameOver: bool, danger: bool)

  /**
    The pass stated per slot: each piece ends as its own slot outcome, exactly
    one life is lost per slot that struck the fish, game over is raised by an
    incoming slot reached with no lives left, and the danger cue shows exactly
    when some slot was incoming.
   */
  function Pass(ds: seq<Debris>, fr: Frame, fish: Fish, gameOver: bool, xs: seq<SlotInputs>): (r: PassResult)
    requires |xs| == |ds| && ValidInputs(xs)
    ensures |r.debris| == |ds|
    ensures forall j :: 0 <= j < |ds| ==> r.debris[j].depth >= -100.0
    ensures fish.lives - |ds| <= r.lives <= fish.lives
    ensures gameOver ==> r.gameOver
    ensures r.lives < fish.lives ==> r.danger
  {
    var rs := Outcomes(ds, fr, fish, xs);
    var hits := HitCount(rs);
    PassResult(seq(|ds|, j requires 0 <= j < |ds| => rs[j].debris), fish.lives - hits,
                 LethalBy(gameOver, fish.lives, rs, |rs|), AnyIncoming(rs, |rs|))
  }

  /**
    The body of the loop of Game.draw_debris for one slot, statement for
    statement: drift, recycle, collision, then inside the incoming branch the
    danger flag, the damage with respawn, and the game-over test on the running
    lives counter. It agrees with the slot's outcome: one life per hit, danger
    once incoming, game over once incoming with no lives left.
   */
  method DrawSlot(piece: Debris, fr: Frame, fish: Fish, x: SlotInputs, lives: int, over: bool, danger: bool)
    returns (d: Debris, lives': int, over': bool, danger': bool)
    requires ValidDraws(x.respawn)
    ensures var r := ProcessSlot(piece, fr, fish, x);
      && d == r.debris
      && lives' == lives - (if r.hit then 1 else 0)
      && danger' == (danger || r.incoming)
      && over' == (over || (r.incoming && lives' <= 0))
  {
    lives', over', danger' := lives, over, danger;
    d := Advance(piece, fr, x.wave);
    if ShouldRecycle(d) {
      d := SetRandom(RecycleDepth, x.respawn);
    }
    var incoming := CheckCollision(fish, d);
    if incoming {
      danger' := true;
      if -2.0 < d.depth < 0.0 && fr.animSeconds > DamageGrace {
        lives' := lives' - 1;
        d := SetRandom(RecycleDepth, x.respawn);
      }
      if lives' <= 0 {
        over' := true;
      }
    }
  }

  /**
    The state of the loop of Game.draw_debris after its first i slots: those
    pieces are at their slot outcomes, the rest untouched, one life is gone per
    hit so far, and the danger cue and game over are as the per-slot predicates
    say for that prefix.
   */
  ghost predicate Drawn(ds: seq<Debris>, fr: Frame, fish: Fish, gameOver: bool, xs: seq<SlotInputs>, i: nat,
                        pool: seq<Debris>, lives: int, over: bool, danger: bool)
    requires |xs| == |ds| && ValidInputs(xs) && i <= |ds|
  {
    var rs := Outcomes(ds, fr, fish, xs);
    && |pool| == |ds|
    && (forall j :: 0 <= j < i ==> pool[j] == rs[j].debris)
    && (forall j :: i <= j < |ds| ==> pool[j] == ds[j])
    && lives == fish.lives - HitCount(rs[..i])
    && danger == AnyIncoming(rs, i)
    && over == LethalBy(gameOver, fish.lives, rs, i)
  }

  /** One iteration of the loop of Game.draw_debris takes the loop state from slot i to slot i + 1. */
  method DrawStep(ds: seq<Debris>, fr: Frame, fish: Fish, gameOver: bool, xs: seq<SlotInputs>, i: nat,
                  pool: seq<Debris>, lives: int, over: bool, danger: bool)
    returns (pool': seq<Debris>, lives': int, over': bool, danger': bool)
    requires |xs| == |ds| && ValidInputs(xs) && i < |ds|
    requires Drawn(ds, fr, fish, gameOver, xs, i, pool, lives, over, danger)
    ensures Drawn(ds, fr, fish, gameOver, xs, i + 1, pool', lives', over', danger')
  {
    ghost var rs := Outcomes(ds, fr, fish, xs);
    var d;
    d, lives', over', danger' := DrawSlot(pool[i], fr, fish, xs[i], lives, over, danger);
    HitCountStep(rs, i);
    AnyIncomingStep(rs, i);
    LethalByStep(gameOver, fish.lives, rs, i);
    pool' := pool[i := d];
  }

  /**
    The loop of Game.draw_debris over the whole pool, with a running lives
    counter: piece j ends as slot j's outcome, one life is gone per hit, the
    danger cue and game over are as the per-slot predicates say.
   */
  method DrawLoop(ds: seq<Debris>, fr: Frame, fish: Fish, gameOver: bool, xs: seq<SlotInputs>)
    returns (pool: seq<Debris>, lives: int, over: bool, danger: bool)
    requires |xs| == |ds| && ValidInputs(xs)
    ensures var rs := Outcomes(ds, fr, fish, xs);
      && |pool| == |ds| && (forall j :: 0 <= j < |ds| ==> pool[j] == rs[j].debris)
      && lives == fish.lives - HitCount(rs)
      && danger == AnyIncoming(rs, |rs|)
      && over == LethalBy(gameOver, fish.lives, rs, |rs|)
  {
    pool := ds;
    lives := fish.lives;
    over := gameOver;
    danger := false;
    var i := 0;
    ghost var rs := Outcomes(ds, fr, fish, xs);
    assert rs[..0] == [];
    while i < |ds|
      invariant 0 <= i <= |ds|
      invariant Drawn(ds, fr, fish, gameOver, xs, i, pool, lives, over, danger)
    {
      pool, lives, over, danger := DrawStep(ds, fr, fish, gameOver, xs, i, pool, lives, over, danger);
      i := i + 1;
    }
    assert rs[..|ds|] == rs;
  }

  /**
    Game.draw_debris as a whole computes exactly the per-slot pass: the pool
    keeps its size, nothing is left deeper than -100, and at most one life per
    piece is lost.
   */
  method DrawDebris(ds: seq<Debris>, fr: Frame, fish: Fish, gameOver: bool, xs: seq<SlotInputs>)
    returns (pool: seq<Debris>, lives: int, over: bool, danger: bool)
    requires |xs| == |ds| && ValidInputs(xs)
    ensures PassResult(pool, lives, over, danger) == Pass(ds, fr, fish, gameOver, xs)
    ensures |pool| == |ds| && fish.lives - |ds| <= lives <= fish.lives
    ensures forall j :: 0 <= j < |pool| ==> pool[j].depth >= -100.0
  {
    pool, lives, over, danger := DrawLoop(ds, fr, fish, gameOver, xs);
    ghost var p := Pass(ds, fr, fish, gameOver, xs);
    assert pool == p.debris;
  }

  /** A recycled piece sits at depth >= 100, so it cannot be incoming in the same iteration. */
  lemma RecycledNeverIncoming(d: Debris, fr: Frame, fish: Fish, x: SlotInputs)
    requires ValidDraws(x.respawn)
    requires ShouldRecycle(Advance(d, fr, x.wave))
    ensures ProcessSlot(d, fr, fish, x).debris.depth >= RecycleDepth
    ensures !ProcessSlot(d, fr, fish, x).incoming
  {
  }

  /** Once the lives left after some hit reach zero, game over has been raised by the last hit. */
  lemma {:induction false} LastHitRaisesGameOver(gameOver: bool, lives: int, rs: seq<SlotResult>, i: nat)
    requires i <= |rs|
    requires forall j :: 0 <= j < |rs| ==> rs[j].hit ==> rs[j].incoming
    requires HitCount(rs[..i]) > 0 && lives - HitCount(rs[..i]) <= 0
    ensures LethalBy(gameOver, lives, rs, i)
    decreases i
  {
    var k := i - 1;
    assert rs[..i] == rs[..k + 1];
    HitCountStep(rs, k);
    if !rs[k].hit {
      LastHitRaisesGameOver(gameOver, lives, rs, k);
    }
  }

  /** The hits among the first i slots are at most the hits of the whole pass. */
  lemma {:induction false} HitCountPrefix(rs: seq<SlotResult>, i: nat)
    requires i <= |rs|
    ensures HitCount(rs[..i]) <= HitCount(rs)
    decreases |rs| - i
  {
    if i < |rs| {
      HitCountStep(rs, i);
      HitCountPrefix(rs, i + 1);
    } else {
      assert rs[..i] == rs;
    }
  }

  /**
    The converse of LethalPassEndsGame: a pass raises game over only through an
    incoming piece met with no lives left, so a pass that raises it ends with
    lives <= 0.
   */
  lemma GameOverMeansNoLives(ds: seq<Debris>, fr: Frame, fish: Fish, xs: seq<SlotInputs>)
    requires |xs| == |ds| && ValidInputs(xs)
    ensures Pass(ds, fr, fish, false, xs).gameOver ==> Pass(ds, fr, fish, false, xs).lives <= 0
  {
    var rs := Outcomes(ds, fr, fish, xs);
    if LethalBy(false, fish.lives, rs, |rs|) {
      var j :| 0 <= j < |rs| && rs[j].incoming && fish.lives - HitCount(rs[..j + 1]) <= 0;
      HitCountPrefix(rs, j + 1);
    }
  }

  /** A pass that takes the last life always ends the game. */
  lemma LethalPassEndsGame(ds: seq<Debris>, fr: Frame, fish: Fish, gameOver: bool, xs: seq<SlotInputs>)
    requires |xs| == |ds| && ValidInputs(xs)
    ensures var r := Pass(ds, fr, fish, gameOver, xs);
      r.lives <= 0 && r.lives < fish.lives ==> r.gameOver
  {
    var rs := Outcomes(ds, fr, fish, xs);
    assert rs[..|rs|] == rs;
    if HitCount(rs) > 0 && fish.lives - HitCount(rs) <= 0 {
      LastHitRaisesGameOver(gameOver, fish.lives, rs, |rs|);
    }
  }

  /**
    Game over is only raised by an incoming piece: a pass that starts without
    game over and sees nothing incoming leaves lives, game over and the danger
    cue alone.
   */
  lemma QuietPass(ds: seq<Debris>, fr: Frame, fish: Fish, xs: seq<SlotInputs>)
    requires |xs| == |ds| && ValidInputs(xs)
    requires forall j :: 0 <= j < |ds| ==> !ProcessSlot(ds[j], fr, fish, xs[j]).incoming
    ensures var r := Pass(ds, fr, fish, false, xs);
      r.lives == fish.lives && !r.gameOver && !r.danger
  {
    var rs := Outcomes(ds, fr, fish, xs);
    assert forall j :: 0 <= j < |rs| ==> !rs[j].hit;
  }

  /**
    A piece that drifts into the damage window at the fish's position after
    the grace period costs exactly one life and is respawned at depth >= 100.
   */
  lemma HeadOnHit(d: Debris, fr: Frame, fish: Fish, x: SlotInputs)
    requires ValidDraws(x.respawn)
    requires fr.animSeconds > DamageGrace
    requires var a := Advance(d, fr, x.wave);
      InDamageWindow(a) && a.horz == fish.horz && a.vert == fish.vert
    ensures var r := Pass([d], fr, fish, false, [x]);
      r.lives == fish.lives - 1 && r.debris[0].depth >= RecycleDepth && r.danger
      && (r.gameOver <==> fish.lives <= 1)
  {
    var rs := Outcomes([d], fr, fish, [x]);
    assert rs[0].hit;
    assert rs[..1] == rs;
  }

  /**
    Several hits in one pass each take a life, so lives can fall below zero:
    two pieces striking a fish with one life left leave it at -1.
   */
  lemma LivesCanGoNegative()
    ensures var d := Debris(0.0, 0.0, -1.0, 0.0, 0.0, 0.0, 0.0, 0.0, Mine);
      var x := SlotInputs(Wave(0.0, 0.0), Draws(0.0, 0.0, 0.0, 0.0, 0.0, 0.0, 0.0, 0.0, 0.0));
      var r := Pass([d, d], Frame(0.0, 6.0, 30.0), Fish(0.0, 0.0, 0.0, 0.0, 1), false, [x, x]);
      r.lives == -1 && r.gameOver
  {
    var d := Debris(0.0, 0.0, -1.0, 0.0, 0.0, 0.0, 0.0, 0.0, Mine);
    var x := SlotInputs(Wave(0.0, 0.0), Draws(0.0, 0.0, 0.0, 0.0, 0.0, 0.0, 0.0, 0.0, 0.0));
    var fish := Fish(0.0, 0.0, 0.0, 0.0, 1);
    var fr := Frame(0.0, 6.0, 30.0);
    var rs := Outcomes([d, d], fr, fish, [x, x]);
    assert Advance(d, fr, x.wave) == d;
    assert rs[0].hit && rs[1].hit;
    assert rs[..2] == rs;
    assert HitCount(rs[..1]) == 1;
    LethalPassEndsGame([d, d], fr, fish, false, [x, x]);
  }

  /**
    Damage only needs animation time > 5 s, while keys are honoured only after
    5.5 s: in between, a piece that drifts into the damage window at the fish's
    position strikes it although the player could not yet steer away.
   */
  lemma DamageBeforeControlGrace(d: Debris, fr: Frame, fish: Fish, x: SlotInputs)
    requires ValidDraws(x.respawn)
    requires DamageGrace < fr.animSeconds <= ControlGrace
    requires var a := Advance(d, fr, x.wave);
      InDamageWindow(a) && a.horz == fish.horz && a.vert == fish.vert
    ensures ProcessSlot(d, fr, fish, x).hit
  {
  }
}

=== FILE: session.dfy ===
/**
  The session state machine of class Game: the reboot that follows a reset,
  the control grace period, the per-frame debris pass while the game is not
  over, the growing drift rate, the key handlers, and reset.
 */
module GameSession {
  import opened GameConstants
  import opened DebrisModel
  import opened FishModel
  import opened DebrisPass

  /**
    The session: the fish (with its lives), the debris pool, whether keys are
    honoured, the frame time the key handlers move by, the game-over and reboot
    flags, the shared drift rate, and whether the fish shows the danger colour.
   */
  datatype Game = Game(
    fish: Fish,
    debris: seq<Debris>,
    canControl: bool,
    ctrlTime: real,
    gameOver: bool,
    reboot: bool,
    wavePeriod: real,
    danger: bool)

  /** this.last_time: set to 0 by the constructor and never changed. */
  const LastTime: real := 0.0

  predicate AllValid(rs: seq<Draws>) {
    forall j :: 0 <= j < |rs| ==> ValidDraws(rs[j])
  }

  /** What a running session keeps: a full pool of debris with sane offsets, the fish in its area, at most three lives. */
  predicate Invariant(g: Game) {
    && |g.debris| == DebrisAmount
    && InBounds(g.fish)
    && g.fish.lives <= MaxLives
    && forall j :: 0 <= j < |g.debris| ==> PieceOk(g.debris[j])
  }

  /** A piece has not fallen behind the recycle floor, and its phase multipliers are in their spawn ranges. */
  predicate PieceOk(d: Debris) {
    d.depth >= -100.0 && 0.0 <= d.bounce < 2.0 && 0.0 <= d.sway < 3.0
  }

  /** The Game constructor: fish at the origin, a fresh pool of mines, no control yet, default drift rate. */
  function NewGame(rs: seq<Draws>): (g: Game)
    requires |rs| == DebrisAmount && AllValid(rs)
    ensures Invariant(g)
    ensures !g.canControl && !g.gameOver && !g.reboot && !g.danger
    ensures g.fish.lives == MaxLives && g.wavePeriod == DefaultPeriod
    ensures forall j :: 0 <= j < |g.debris| ==> g.debris[j].kind == Mine && g.debris[j].depth >= SpawnDepth
  {
    Game(NewFish(0.0, 0.0), seq(|rs|, j requires 0 <= j < |rs| => NewDebris(rs[j])),
         false, 0.0, false, false, DefaultPeriod, false)
  }

  /** The four swim keys. */
  datatype Key = SwimUp | SwimLeft | SwimDown | SwimRight

  function KeyDirection(k: Key): int {
    match k
    case SwimUp => UP
    case SwimLeft => LEFT
    case SwimDown => DOWN
    case SwimRight => RIGHT
  }

  /** A boolean used as a number in a product, as the key handlers do with can_control. */
  function AsNumber(b: bool): int { if b then 1 else 0 }

  /**
    A swim key: the fish moves by the last frame's time in the key's direction
    multiplied by can_control. Without control the direction is 0 (NONE), which
    leaves the position alone but levels both tilts. Nothing but the fish changes.
   */
  function Press(g: Game, k: Key): (r: Game)
    ensures r == g.(fish := r.fish)
    ensures r.fish.lives == g.fish.lives
    ensures !g.canControl ==> r.fish == g.fish.(vertTilt := 0.0, horzTilt := 0.0)
    ensures g.canControl ==> r.fish == Move(g.fish, KeyDirection(k), g.ctrlTime)
    ensures InBounds(g.fish) ==> InBounds(r.fish)
  {
    g.(fish := Move(g.fish, KeyDirection(k) * AsNumber(g.canControl), g.ctrlTime))
  }

  /**
    Game.reset: the fish is centred and levelled, game over is cleared, a reboot
    is scheduled and the drift rate is restored. Every other field (lives, the
    pool, control, the last move time, the danger cue) is left as it is; lives
    and the pool are renewed by the reboot.
   */
  function Reset(g: Game): (r: Game)
    ensures r.fish.vert == 0.0 && r.fish.horz == 0.0 && r.fish.vertTilt == 0.0 && r.fish.horzTilt == 0.0
    ensures !r.gameOver && r.reboot && r.wavePeriod == DefaultPeriod
    ensures r.fish.lives == g.fish.lives
    ensures r == g.(fish := r.fish, gameOver := false, reboot := true, wavePeriod := DefaultPeriod)
  {
    g.(fish := g.fish.(vert := 0.0, horz := 0.0, horzTilt := 0.0, vertTilt := 0.0),
       gameOver := false, reboot := true, wavePeriod := DefaultPeriod)
  }

  /**
    What the framework hands one call of display: the animation time and the
    frame's delta (milliseconds), the draws for a reboot's respawns, and each
    slot's inputs for the debris pass.
   */
  datatype FrameInputs = FrameInputs(animMs: real, deltaMs: real, respawns: seq<Draws>, slots: seq<SlotInputs>)

  predicate InputsFit(n: nat, fi: FrameInputs) {
    |fi.respawns| == n && AllValid(fi.respawns) && |fi.slots| == n && ValidInputs(fi.slots)
  }

  /** set_random(200) on every slot of the pool. */
  function RespawnAll(rs: seq<Draws>): (ds: seq<Debris>)
    requires AllValid(rs)
    ensures |ds| == |rs|
    ensures forall j :: 0 <= j < |ds| ==> InSpawnRanges(ds[j], SpawnDepth)
  {
    seq(|rs|, j requires 0 <= j < |rs| => SetRandom(SpawnDepth, rs[j]))
  }

  /**
    The rule part of Game.display. A pending reboot zeroes the frame's times,
    respawns the pool at depth >= 200 and restores the lives. Control is granted
    once more than 5.5 s of animation time have passed and never withdrawn.
    While the game is not over the debris pass runs with the current drift
    rate; then the drift rate grows by the frame time.
   */
  function Display(g: Game, fi: FrameInputs): (r: Game)
    requires InputsFit(|g.debris|, fi)
    ensures |r.debris| == |g.debris|
    ensures !r.reboot
    ensures r.canControl <==> g.canControl || (!g.reboot && fi.animMs > 5500.0)
    ensures g.gameOver ==> r.gameOver && r.danger == g.danger
    ensures g.gameOver && !g.reboot ==> r.debris == g.debris && r.fish == g.fish
    ensures r.wavePeriod == g.wavePeriod + (if g.reboot then 0.0 else fi.deltaMs / 1000.0)
    ensures !g.reboot ==> r.fish.lives <= g.fish.lives
    ensures g.reboot ==> r.fish.lives == MaxLives
    ensures g.reboot && !g.gameOver ==> forall j :: 0 <= j < |r.debris| ==> r.debris[j].depth >= SpawnDepth
    ensures r.fish.(lives := 0) == g.fish.(lives := 0)
  {
    var animMs := if g.reboot then 0.0 else fi.animMs;
    var deltaMs := if g.reboot then 0.0 else fi.deltaMs;
    var pool := if g.reboot then RespawnAll(fi.respawns) else g.debris;
    var fish := if g.reboot then g.fish.(lives := MaxLives) else g.fish;
    var t := animMs / 1000.0 - LastTime;
    var canControl := g.canControl || t > ControlGrace;
    var dt := deltaMs / 1000.0;
    var g1 := g.(fish := fish, debris := pool, reboot := false, canControl := canControl,
                 ctrlTime := dt, wavePeriod := g.wavePeriod + dt);
    if g.gameOver then g1
    else
      var fr := Frame(dt, animMs / 1000.0, g.wavePeriod);
      var p := Pass(pool, fr, fish, false, fi.slots);
      var r := g1.(debris := p.debris, fish := fish.(lives := p.lives), gameOver := p.gameOver, danger := p.danger);
      if g.reboot then FarPoolIsQuiet(pool, fr, fish, fi.slots); r else r
  }

  /** Without a pending reboot, control is granted by any frame later than the 5.5 s grace. */
  lemma ControlGranted(g: Game, fi: FrameInputs)
    requires InputsFit(|g.debris|, fi)
    requires !g.reboot && fi.animMs > 5500.0
    ensures Display(g, fi).canControl
  {
  }

  /** Without control every swim key is a NONE move: the fish cannot move. */
  lemma NoMovementWithoutControl(g: Game, k: Key)
    requires !g.canControl
    ensures Press(g, k).fish.vert == g.fish.vert && Press(g, k).fish.horz == g.fish.horz
  {
  }

  /**
    A reset followed by a frame: the fish is centred and level with full lives,
    the game is not over, no reboot is pending, the drift rate is back at 30,
    every piece sits at depth >= 200 and the fish is not in danger.
   */
  lemma ResetThenDisplay(g: Game, fi: FrameInputs)
    requires InputsFit(|g.debris|, fi)
    ensures var r := Display(Reset(g), fi);
      && r.fish == Fish(0.0, 0.0, 0.0, 0.0, MaxLives)
      && !r.gameOver && !r.reboot && !r.danger
      && r.wavePeriod == DefaultPeriod
      && r.canControl == g.canControl
      && forall j :: 0 <= j < |r.debris| ==> r.debris[j].depth >= SpawnDepth
  {
    var g0 := Reset(g);
    var pool := RespawnAll(fi.respawns);
    var fish := g0.fish.(lives := MaxLives);
    var fr := Frame(0.0, 0.0, g0.wavePeriod);
    FarPoolIsQuiet(pool, fr, fish, fi.slots);
  }

  /**
    A pass with no elapsed time over a pool that is at least 200 deep leaves
    every piece where it is in depth, costs nothing and raises nothing.
   */
  lemma FarPoolIsQuiet(ds: seq<Debris>, fr: Frame, fish: Fish, xs: seq<SlotInputs>)
    requires |xs| == |ds| && ValidInputs(xs)
    requires fr.dt == 0.0
    requires forall j :: 0 <= j < |ds| ==> ds[j].depth >= SpawnDepth
    ensures var r := Pass(ds, fr, fish, false, xs);
      && r.lives == fish.lives && !r.gameOver && !r.danger
      && forall j :: 0 <= j < |ds| ==> r.debris[j].depth >= SpawnDepth
  {
    forall j | 0 <= j < |ds|
      ensures !ProcessSlot(ds[j], fr, fish, xs[j]).incoming
      ensures ProcessSlot(ds[j], fr, fish, xs[j]).debris.depth >= SpawnDepth
    {
      AdvanceMonotone(ds[j], fr, xs[j].wave);
    }
    QuietPass(ds, fr, fish, xs);
  }

  /** One event of a session: a frame, a swim key, or the reset key. */
  datatype Event = Tick(inputs: FrameInputs) | KeyDown(key: Key) | ResetKey

  predicate EventsFit(n: nat, es: seq<Event>) {
    forall i :: 0 <= i < |es| ==> es[i].Tick? ==> InputsFit(n, es[i].inputs)
  }

  function Step(g: Game, e: Event): (r: Game)
    requires e.Tick? ==> InputsFit(|g.debris|, e.inputs)
    ensures |r.debris| == |g.debris|
  {
    match e
    case Tick(fi) => Display(g, fi)
    case KeyDown(k) => Press(g, k)
    case ResetKey => Reset(g)
  }

  /** A session driven through a sequence of events. */
  function Run(g: Game, es: seq<Event>): (r: Game)
    requires EventsFit(|g.debris|, es)
    ensures |r.debris| == |g.debris|
    decreases |es|
  {
    if |es| == 0 then g else Run(Step(g, es[0]), es[1..])
  }

  /** Control, once granted, is never withdrawn, not even by a reset. */
  lemma {:induction false} ControlNeverRevoked(g: Game, es: seq<Event>)
    requires EventsFit(|g.debris|, es)
    requires g.canControl
    ensures Run(g, es).canControl
    decreases |es|
  {
    if |es| > 0 {
      ControlNeverRevoked(Step(g, es[0]), es[1..]);
    }
  }

  /** Game over, once raised, lasts until the reset key. */
  lemma {:induction false} GameOverUntilReset(g: Game, es: seq<Event>)
    requires EventsFit(|g.debris|, es)
    requires g.gameOver
    requires forall i :: 0 <= i < |es| ==> !es[i].ResetKey?
    ensures Run(g, es).gameOver
    decreases |es|
  {
    if |es| > 0 {
      GameOverUntilReset(Step(g, es[0]), es[1..]);
    }
  }

  /** Between resets, with non-negative frame deltas, the drift rate never decreases. */
  lemma {:induction false} DriftRateGrows(g: Game, es: seq<Event>)
    requires EventsFit(|g.debris|, es)
    requires forall i :: 0 <= i < |es| ==> !es[i].ResetKey?
    requires forall i :: 0 <= i < |es| ==> es[i].Tick? ==> es[i].inputs.deltaMs >= 0.0
    ensures Run(g, es).wavePeriod >= g.wavePeriod
    decreases |es|
  {
    if |es| > 0 {
      DriftRateGrows(Step(g, es[0]), es[1..]);
    }
  }

  /** One event keeps the session invariant. */
  lemma StepKeepsInvariant(g: Game, e: Event)
    requires Invariant(g)
    requires e.Tick? ==> InputsFit(|g.debris|, e.inputs)
    ensures Invariant(Step(g, e))
  {
    if e.Tick? && !g.gameOver {
      var fi := e.inputs;
      var animMs := if g.reboot then 0.0 else fi.animMs;
      var deltaMs := if g.reboot then 0.0 else fi.deltaMs;
      var pool := if g.reboot then RespawnAll(fi.respawns) else g.debris;
      var fish := if g.reboot then g.fish.(lives := MaxLives) else g.fish;
      var fr := Frame(deltaMs / 1000.0, animMs / 1000.0, g.wavePeriod);
      assert forall j :: 0 <= j < |pool| ==> PieceOk(pool[j]);
      PassKeepsPieces(pool, fr, fish, fi.slots);
    }
  }

  /** The pass keeps every piece above the recycle floor with its multipliers in range. */
  lemma PassKeepsPieces(ds: seq<Debris>, fr: Frame, fish: Fish, xs: seq<SlotInputs>)
    requires |xs| == |ds| && ValidInputs(xs)
    requires forall j :: 0 <= j < |ds| ==> PieceOk(ds[j])
    ensures var r := Pass(ds, fr, fish, false, xs);
      forall j :: 0 <= j < |ds| ==> PieceOk(r.debris[j])
  {
    forall j | 0 <= j < |ds|
      ensures PieceOk(ProcessSlot(ds[j], fr, fish, xs[j]).debris)
    {
      AdvanceMonotone(ds[j], fr, xs[j].wave);
    }
  }

  /** Every session reached from a valid one by any events keeps the invariant. */
  lemma {:induction false} RunKeepsInvariant(g: Game, es: seq<Event>)
    requires Invariant(g)
    requires EventsFit(|g.debris|, es)
    ensures Invariant(Run(g, es))
    decreases |es|
  {
    if |es| > 0 {
      StepKeepsInvariant(g, es[0]);
      RunKeepsInvariant(Step(g, es[0]), es[1..]);
    }
  }
}
